=== FILE: README.md ===
# GPS track replay: playback core in Dafny

This project models the playback core of a browser app that replays a recorded
vehicle GPS track on a map. It has three parts.

- **Playback clock and derived values** (`vehicle_map.dfy`, module `VehicleMap`).
  The screen's state is the current sample index, the playing flag and an
  interval timer. The simulation effect arms a tick every 2000 ms. Each tick
  adds one to the index. The effect arms the tick only while playing, the
  route is non-empty and the last sample is not reached. At the last sample it
  forces playback off.
  - Play/pause, reset and the slider write the same state.
  - The slider percentage, the percent-to-index mapping, the traveled-trace
    prefix and the "Initializing Map..." guard are pure functions.
  - The clock is specified by pure step functions on a `Clock` value
    (`Effect`, `TickStep`, `ToggleStep`, `ResetStep`, `SliderStep`). Lemmas
    about them cover the index bounds, stopping at the end and the round trip.
    The class `Playback` holds the fields the component updates. Each of its
    methods is proved to move its state exactly as the matching step function
    says.
- **Speed guard** (`utils.dfy`, module `Utils`). The speed at an index is zero
  at index 0, for a route of at most one sample, when a neighbour sample is
  missing, and when the time between the two samples is not positive.
  Otherwise it is the distance divided by the elapsed hours. The haversine
  distance is a function parameter about which nothing is assumed.
- **Frame-stepped interpolator** (`animated_marker.dfy`, module
  `AnimatedMarker`). The class `Marker` holds the marker position, the map
  centre, the animation's start, target, start time and duration, and whether
  an animation frame is pending.
  - `Update` is the effect run on a new position. It first cancels any pending
    frame. It then snaps (placeholder `(0, 0)` or already at the target) or
    starts one new animation.
  - `Frame(now)` computes `progress = min(1, elapsed / duration)`. It moves the
    marker and the camera to the lerped point. It asks for another frame only
    while `progress < 1`, and at the end it snaps exactly to the target.

`screen_marker.dfy` (module `ScreenMarker`) puts the marker on the screen.
It uses the duration the screen hands it and shows what the map
container's key does to the glide (see "## Findings").

`geo.dfy` (module `Geo`) holds the shared values: `Option`, `LatLng` and
`Sample`. A sample's timestamp is in integer milliseconds.

The percent-to-index mapping is not clamped (src/VehicleMap.jsx:89). It stays
in `[0, n - 1]` because the slider is a range input from 0 to 100
(src/components/MapControls.jsx:46-49). `PercentToIndex` states the bound under
that condition.

Timers, animation frames and clocks are explicit method calls that take the
time as a parameter. `Playback.Tick()` is one firing of the interval.
`Playback.ReEvaluate()` is one run of the simulation effect, after the
previous run's cleanup. `Marker.Frame(now)` is one animation frame at
timestamp `now`. Each handler of `Playback` runs the effect after writing its
fields. The framework skips the effect when no dependency changed. That makes
no difference here, because `Effect` leaves a settled state unchanged (its
last `ensures`).

## Model

| member | source | states |
|---|---|---|
| `Utils.ElapsedHours` | src/utils.js:28-29 | The hours between two timestamps are positive exactly when the current timestamp is later, and times 3 600 000 they give back the millisecond difference. |
| `Utils.CalculateSpeedKmH` | src/utils.js:15-34 | Zero at index 0 or for a route of at most one sample. A speed is produced exactly when both neighbour samples exist and the time delta is positive. The speed times the elapsed hours equals the distance from the previous sample to the current one, in that argument order. |
| `Utils.SpeedIsLocal` | src/utils.js:18-26 | Two routes that agree on samples `i - 1` and `i` give the same speed, whatever else they hold. |
| `Utils.SameTimestampIsZero` | src/utils.js:28-31 | A non-positive time delta, such as two equal timestamps, gives the zero result and never a division. |
| `Utils.SpeedNonNegative` | src/utils.js:31-33 | A non-negative distance gives a non-negative speed. |
| `Utils.TenSecondsApart` | src/utils.js:28-33 | Samples 10 s apart give distance × 360 km/h. |
| `VehicleMap.Round` | src/VehicleMap.jsx:83 | `Math.round` of a rational: the result is within one half of `num / den`, and halves round up. |
| `VehicleMap.RoundUnique` | src/VehicleMap.jsx:83 | The nearest-integer property determines the rounded value uniquely. |
| `VehicleMap.IndexToPercent` | src/VehicleMap.jsx:82-84 | The slider value is 0 for a route of at most one sample. For an index in `[0, n - 1]` it lies in `[0, 100]`. It is 0 at the first index and 100 at the last. |
| `VehicleMap.PercentToIndex` | src/VehicleMap.jsx:89 | For a percentage in `[0, 100]` and a non-empty route, the selected index lies in `[0, n - 1]`. |
| `VehicleMap.PercentRoundTrip` | src/VehicleMap.jsx:82-89 | For routes of 1 to 101 samples, percent→index inverts index→percent for every index. |
| `VehicleMap.ElevenSampleRoundTrip` | src/VehicleMap.jsx:82-89 | With 11 samples, index 5 → 50 % → index 5. |
| `VehicleMap.RoundTripLossyAt102` | src/VehicleMap.jsx:82-89 | The 101-sample bound is tight: with 102 samples, index 50 → 50 % → index 51. |
| `VehicleMap.FullRouteCoords` | src/VehicleMap.jsx:59 | The planned trace has one coordinate per sample, in route order. |
| `VehicleMap.SliceTo` | src/VehicleMap.jsx:60 | `slice(0, end)` is always a prefix. It has length `end` when `0 <= end <= length`, and it is the whole sequence when `end` is past the length. |
| `VehicleMap.TraveledRouteCoords` | src/VehicleMap.jsx:60 | The traveled trace is a prefix of the planned trace. For an index on the route it has length `index + 1` and ends at the current coordinate. From the last index on it is the whole trace. |
| `VehicleMap.TraveledGrowsByOne` | src/VehicleMap.jsx:59-60 | Moving the index one step forward appends exactly the next coordinate to the traveled trace. |
| `VehicleMap.IsInitializing` | src/VehicleMap.jsx:93-95 | When the map is rendered, the current index addresses a sample. An empty route always shows the initializing message. |
| `VehicleMap.Effect` | src/VehicleMap.jsx:40-54 | The effect keeps the index. It leaves a settled state: a timer is armed exactly while playing short of the last sample, and nothing plays at or past it. It keeps the playing flag short of the end, and it leaves an already settled state unchanged. |
| `VehicleMap.TickStep` | src/VehicleMap.jsx:44-47 | A tick adds exactly 1 to the index when the timer is armed, and does nothing otherwise. It keeps the index on the route and the state settled. |
| `VehicleMap.ToggleStep` | src/VehicleMap.jsx:74 | Play/pause keeps the index. Playing becomes true exactly when it was off and the index is short of the end, so toggling at the last index is undone at once. |
| `VehicleMap.ResetStep` | src/VehicleMap.jsx:75-79 | Reset yields index 0, paused, with no timer armed. |
| `VehicleMap.SliderStep` | src/VehicleMap.jsx:86-91 | A slider change pauses, disarms the timer and jumps to `PercentToIndex(p, n)`. That index is on the route for `p` in `[0, 100]`. |
| `VehicleMap.TicksPreserveInvariant` | src/VehicleMap.jsx:40-54 | After any number of ticks the index is still on the route and the clock is settled, so no tick passes the last sample. |
| `VehicleMap.DisarmedStaysPut` | src/VehicleMap.jsx:44-51 | With no timer armed, no number of ticks changes anything. |
| `VehicleMap.PlayRunsToEnd` | src/VehicleMap.jsx:40-54 | Playing from index `i` reaches the last sample after exactly `n - 1 - i` ticks. It stops there with no timer armed. |
| `VehicleMap.PlayIsRunningBeforeEnd` | src/VehicleMap.jsx:40-54 | Before the last sample, `k` ticks leave playback running at index `i + k` with the timer armed. |
| `VehicleMap.FourSampleScenario` | src/VehicleMap.jsx:40-54 | On a 4-sample route played from index 0, two ticks leave it playing at index 2. Three ticks leave it at index 3, stopped, and later ticks change nothing. |
| `VehicleMap.Playback.constructor` | src/VehicleMap.jsx:33-35 | Mounting starts at index 0, paused, with no timer, and the state is valid. |
| `VehicleMap.Playback.ReEvaluate` | src/VehicleMap.jsx:40-54 | The imperative effect (cleanup, then arm or stop) moves the state exactly as `Effect`. |
| `VehicleMap.Playback.Tick` | src/VehicleMap.jsx:45-47 | The interval callback moves the state exactly as `TickStep` and keeps it valid. |
| `VehicleMap.Playback.TogglePlay` | src/VehicleMap.jsx:74 | The handler moves the state exactly as `ToggleStep` and keeps it valid. |
| `VehicleMap.Playback.ResetSimulation` | src/VehicleMap.jsx:75-79 | The handler moves the state exactly as `ResetStep` and keeps it valid. |
| `VehicleMap.Playback.OnSliderChange` | src/VehicleMap.jsx:86-91 | The handler moves the state exactly as `SliderStep` and keeps it valid. |
| `VehicleMap.Playback.Unmount` | src/VehicleMap.jsx:53 | Unmounting clears the interval and keeps the index and the playing flag. Afterwards no number of ticks changes the state. |
| `VehicleMap.PlayMockRoute` | src/VehicleMap.jsx:10-16 | The built-in 4-sample route, played from the start, rests at index 3 after three ticks, stopped, with no timer armed. |
| `AnimatedMarker.SafePosition` | src/components/AnimatedMarker.jsx:54 | A missing position becomes the `(0, 0)` placeholder that the snap rule tests for. A given position is kept. |
| `AnimatedMarker.Progress` | src/components/AnimatedMarker.jsx:29-30 | Progress is at most 1, and non-negative for non-negative elapsed time. It equals 1 exactly when the duration has elapsed. Below 1 it is `elapsed / duration`. |
| `AnimatedMarker.Lerp` | src/components/AnimatedMarker.jsx:33-34 | The lerp gives the start at progress 0 and the end at progress 1. For progress in `[0, 1]` it lies between the two. |
| `AnimatedMarker.LerpPoint` | src/components/AnimatedMarker.jsx:33-36 | The same per coordinate, for a map point. |
| `AnimatedMarker.Marker.constructor` | src/components/AnimatedMarker.jsx:54-57 | The marker is created at the given position, or at the placeholder, with no frame pending. |
| `AnimatedMarker.Marker.Cleanup` | src/components/AnimatedMarker.jsx:49 | Cleanup cancels the pending frame and changes nothing else. |
| `AnimatedMarker.Marker.Update` | src/components/AnimatedMarker.jsx:13-26 | The previous animation is cancelled first. With no position nothing moves. At the placeholder, or already within Leaflet's equality margin of the target, the marker is set to the target and no frame is requested. Otherwise one animation starts from the current position toward the new target at time `now`. |
| `AnimatedMarker.Marker.Frame` | src/components/AnimatedMarker.jsx:28-46 | A pending frame moves the camera to the lerped point at `min(1, elapsed / duration)` and puts the marker at the same point. It requests another frame exactly while progress is below 1, and otherwise sets the marker exactly on the target. For frames at or after the start time the marker never leaves the segment from start to target. A frame that is not pending changes nothing. |
| `AnimatedMarker.Marker.RunFrames` | src/components/AnimatedMarker.jsx:41-48 | Frames delivered at any fixed positive period, starting at any timestamp (even one earlier than the animation's start time), end the animation after finitely many frames, with the marker exactly on its target. |
| `AnimatedMarker.LatestTargetWins` | src/components/AnimatedMarker.jsx:13-51 | For a marker in any state, including one with an animation in flight, a new target followed by a frame one duration later leaves the marker resting exactly on that target, with no frame pending. |
| `ScreenMarker.GlideEndsBeforeNextTick` | src/VehicleMap.jsx:136 | The marker's duration, 90 % of the tick interval, has fully elapsed one tick interval after a glide starts: its progress is 1. |
| `ScreenMarker.RemountedMarkerSnaps` | src/VehicleMap.jsx:108-138 | As written, every index change to a sample at different coordinates mounts a fresh marker at the new position. It snaps there and never requests a frame. A change to a sample at the same coordinates keeps the marker, which already rests on the target, so it snaps as well. |
| `ScreenMarker.KeptMarkerAnimates` | src/components/AnimatedMarker.jsx:17-36 | A marker kept across the change, moving in any direction to a target it does not snap to, animates. Half-way through the duration it is at the midpoint of the old and new positions, distinct from both, with a frame pending. |
| `ScreenMarker.MockRouteFirstTickAnimates` | src/VehicleMap.jsx:10-16 | On the built-in route, the kept marker's glide from sample 0 to sample 1 lies strictly between the two samples in both coordinates half-way through, with a frame pending. |

## Findings

| source | as written | input that shows it | evidently intended | confidence | as-written member | corrected member |
|---|---|---|---|---|---|---|
| src/VehicleMap.jsx:113 | The map container is keyed by the current coordinates. Every index change to a sample at different coordinates therefore remounts the map and the marker at the new position, and the marker's effect snaps instead of animating. A change to a sample at the same coordinates keeps the marker, which already rests there and snaps. | A tick from index 0 to 1 of the built-in route, whose first two samples differ. | The marker stays mounted and glides from the old sample to the new one over 90 % of the tick interval. | high, not executed | `ScreenMarker.RemountedMarkerSnaps` | `ScreenMarker.KeptMarkerAnimates` |

The rest of the model uses the intended behaviour: one `Marker` that lives
across index changes. Removing the key alone may not restore the glide. The
map library's marker also moves itself to its new position prop before this
component's effect reads `getLatLng()`. That update is not part of this model
(see "## Left out"). If it runs first, the effect would again find the marker
on its target and snap.

## Left out

- `calculateDistanceKm` (src/utils.js:4-13): the haversine formula is floating-point trigonometry. It is a function parameter of `Utils.CalculateSpeedKmH`, and nothing is assumed about it.
- `toFixed(2)` (src/utils.js:34): the result is the datatype `Speed` (`Zero` for '0.00', `KmH(v)`), not text.
- ISO-8601 parsing by `new Date(...).getTime()` (src/utils.js:28): timestamps are integer milliseconds. An unparsable timestamp (NaN) is not modelled.
- Floating point: coordinates, progress and speed are exact reals, and the slider arithmetic is exact rational arithmetic rounded as `Math.round`. Binary rounding of `(i / (n - 1)) * 100` near a half is not modelled. In the reals the final snap of `Frame` coincides with the last lerped point. In floating point it removes drift.
- `VehicleMap.Playback.OnSliderChange`: requires a non-empty route and a whole percentage in `[0, 100]`. The slider is rendered only for a loaded route (src/VehicleMap.jsx:93-95) and is a range input from 0 to 100 (src/components/MapControls.jsx:46-49).
- `AnimatedMarker.Marker.Update`: requires a positive duration. The screen always passes 1800 ms (src/VehicleMap.jsx:136) and the default is 2000 ms.
- `setInterval`/`clearInterval`, `requestAnimationFrame`, `cancelAnimationFrame`, `performance.now` and the framework's effect scheduling are explicit calls: `Tick`, `ReEvaluate`, `Frame(now)`, `Update(..., now)`, `Cleanup`. The interval's 2000 ms period and the 90 % animation duration are constants and are not timed.
- The marker position is taken to be written only by this component. The map library's own update of a marker from its position prop is not modelled.
- The map, tile layer, polylines, icon and popup data (src/VehicleMap.jsx:63-71, 97-153) are presentation. The planned and traveled traces are modelled as the coordinate sequences handed to them.
- `currentSpeed` (src/VehicleMap.jsx:61) is `Utils.CalculateSpeedKmH` applied to the component's index and route. It has no separate member.
- src/components/MapControls.jsx, src/components/VehicleInfoCard.jsx and src/App.jsx are presentational and are not part of this model. The only logic in them is a position fallback, an `index + 1 / length` display and a status check on a float.
- There is no route fetch or fallback in the code. The route is the constant `MockRouteData` (src/VehicleMap.jsx:10-16).

=== FILE: animated_marker.dfy ===
/** The vehicle marker that glides from its current position to each new
    target: one animation at a time, driven frame by frame, with the map
    camera following the interpolated point. Time is passed in explicitly as
    the frame timestamp in milliseconds. */
module AnimatedMarker {
  import opened Geo

  /** The default margin of Leaflet's `LatLng.equals`: two points whose
      coordinates differ by at most 1e-9 degrees are the same point. */
  const EqualsMargin: real := 0.000000001

  function Abs(x: real): real
  {
    if x < 0.0 then -x else x
  }

  /** Leaflet's `LatLng.equals` with its default margin. */
  predicate SamePoint(a: LatLng, b: LatLng)
  {
    Abs(a.lat - b.lat) <= EqualsMargin && Abs(a.lng - b.lng) <= EqualsMargin
  }

  /** The `(0, 0)` placeholder a marker shows before it has a position. */
  predicate IsPlaceholder(p: LatLng)
  {
    p.lat == 0.0 && p.lng == 0.0
  }

  /** The position the marker is created with: the given one, or the
      placeholder when none is given. */
  function SafePosition(position: Option<LatLng>): (p: LatLng)
    ensures position.Some? ==> p == position.value
    ensures position.None? ==> IsPlaceholder(p)
  {
    if position.Some? then position.value else LatLng(0.0, 0.0)
  }

  /** No animation is needed from `start` to `end`: the marker still shows the
      placeholder, or it is already at the target. */
  predicate SnapsTo(start: LatLng, end: LatLng)
  {
    IsPlaceholder(start) || SamePoint(start, end)
  }

  /** The fraction of the animation done after `elapsed` milliseconds:
      `min(1, elapsed / duration)`. */
  function Progress(elapsed: real, duration: real): (p: real)
    requires duration > 0.0
    ensures p <= 1.0
    ensures elapsed >= 0.0 ==> p >= 0.0
    ensures p == 1.0 <==> elapsed >= duration
    ensures p < 1.0 ==> p * duration == elapsed
  {
    var q := elapsed / duration;
    if q < 1.0 then q else 1.0
  }

  /** `x` lies between `a` and `b`, whichever is larger. */
  predicate Between(a: real, x: real, b: real)
  {
    (a <= x <= b) || (b <= x <= a)
  }

  /** Linear interpolation `a + (b - a) * t` of one coordinate. */
  function Lerp(a: real, b: real, t: real): (x: real)
    ensures t == 0.0 ==> x == a
    ensures t == 1.0 ==> x == b
    ensures 0.0 <= t <= 1.0 ==> Between(a, x, b)
  {
    LerpBetween(a, b, t);
    a + (b - a) * t
  }

  lemma LerpBetween(a: real, b: real, t: real)
    ensures 0.0 <= t <= 1.0 ==> Between(a, a + (b - a) * t, b)
  {
    if 0.0 <= t <= 1.0 {
      var d := b - a;
      MulNonNegative(if d >= 0.0 then d else -d, t);
      MulNonNegative(if d >= 0.0 then d else -d, 1.0 - t);
      assert d * (1.0 - t) == d - d * t;
    }
  }

  lemma MulNonNegative(x: real, y: real)
    requires x >= 0.0 && y >= 0.0
    ensures x * y >= 0.0
  {
  }

  /** The point a fraction `t` of the way from `start` to `end`, coordinate by
      coordinate in latitude/longitude space. */
  function LerpPoint(start: LatLng, end: LatLng, t: real): (p: LatLng)
    ensures t == 0.0 ==> p == start
    ensures t == 1.0 ==> p == end
    ensures 0.0 <= t <= 1.0 ==> Between(start.lat, p.lat, end.lat) && Between(start.lng, p.lng, end.lng)
  {
    LatLng(Lerp(start.lat, end.lat, t), Lerp(start.lng, end.lng, t))
  }

  /** A marker on the map, with the one animation it may have in flight.
      `framePending` stands for the requested animation frame; `center` is
      where the map was last panned to. */
  class Marker {
    var position: LatLng
    var center: LatLng
    var start: LatLng
    var target: LatLng
    var startTime: real
    var duration: real
    var framePending: bool

    ghost predicate Valid()
      reads this
    {
      framePending ==> duration > 0.0
    }

    /** The marker is created at the given position, or at the placeholder. */
    constructor (initial: Option<LatLng>, mapCenter: LatLng)
      ensures Valid()
      ensures position == SafePosition(initial) && center == mapCenter && !framePending
    {
      position := SafePosition(initial);
      center := mapCenter;
      start, target := position, position;
      startTime, duration := 0.0, 1.0;
      framePending := false;
    }

    /** The effect's cleanup: cancel the pending animation frame, if any. It
        runs before every new run of the effect and when the marker is
        removed. */
    method Cleanup()
      modifies this`framePending
      ensures !framePending
    {
      framePending := false;
    }

    /** A new target position (or duration) arrives at time `now`. Any
        animation in flight is cancelled first; the marker then snaps to the
        target or starts a single new animation from where it stands. */
    method Update(newPosition: Option<LatLng>, newDuration: real, now: real)
      requires Valid() && newDuration > 0.0
      modifies this
      ensures Valid()
      ensures center == old(center)
      ensures newPosition.None? ==> position == old(position) && !framePending
      ensures newPosition.Some? && SnapsTo(old(position), newPosition.value) ==>
                position == newPosition.value && !framePending
      ensures newPosition.Some? && !SnapsTo(old(position), newPosition.value) ==>
                && framePending && position == old(position)
                && start == old(position) && target == newPosition.value
                && startTime == now && duration == newDuration
    {
      Cleanup();
      if newPosition.Some? {
        var startLatLng := position;
        var endLatLng := newPosition.value;
        if IsPlaceholder(startLatLng) || SamePoint(startLatLng, endLatLng) {
          position := endLatLng;
          return;
        }
        start, target := startLatLng, endLatLng;
        startTime, duration := now, newDuration;
        framePending := true;
      }
    }

    /** The animation frame at time `now`, if one is pending: move the marker
        and the camera to the interpolated point, then either request the next
        frame or, once the progress reaches 1, snap exactly to the target. */
    method Frame(now: real)
      requires Valid()
      modifies this
      ensures Valid()
      ensures !old(framePending) ==> unchanged(this)
      ensures start == old(start) && target == old(target)
      ensures startTime == old(startTime) && duration == old(duration)
      ensures old(framePending) ==>
                var p := Progress(now - startTime, duration);
                && center == LerpPoint(start, target, p)
                && framePending == (p < 1.0)
                && position == (if p < 1.0 then center else target)
      ensures old(framePending) ==> position == center
      ensures old(framePending) && now >= startTime ==>
                Between(start.lat, position.lat, target.lat) && Between(start.lng, position.lng, target.lng)
    {
      if framePending {
        var elapsedTime := now - startTime;
        var progress := Progress(elapsedTime, duration);
        var point := LerpPoint(start, target, progress);
        position := point;
        center := point;
        if progress < 1.0 {
          framePending := true;
        } else {
          position := target;
          framePending := false;
        }
      }
    }

    /** The browser delivering frames every `period` milliseconds from
        `firstFrame` on: the animation ends after finitely many frames, with
        the marker exactly on its target. The first frame's timestamp may be
        earlier than the animation's start time. */
    method RunFrames(firstFrame: real, period: real)
      requires Valid() && framePending && period > 0.0
      modifies this
      ensures Valid() && !framePending
      ensures position == old(target)
    {
      var now := firstFrame;
      ghost var k: int := 0;
      ghost var span := duration + startTime - firstFrame;
      ghost var bound := if span > 0.0 then (span / period).Floor + 1 else 1;
      while framePending
        invariant Valid()
        invariant target == old(target) && startTime == old(startTime) && duration == old(duration)
        invariant k >= 0 && now == firstFrame + k as real * period
        invariant framePending && k > 0 ==> (k - 1) as real * period < span
        invariant !framePending ==> position == target
        decreases bound - k
      {
        if k > 0 {
          FramesBounded(k, period, span);
        }
        Frame(now);
        now := now + period;
        k := k + 1;
      }
    }
  }

  /** Fewer than `duration / period + 1` frames fit before the deadline. */
  lemma FramesBounded(k: int, period: real, duration: real)
    requires period > 0.0 && duration > 0.0
    requires (k - 1) as real * period < duration
    ensures k <= (duration / period).Floor + 1
  {
    assert (k - 1) as real < duration / period;
  }

  /** Whatever state a marker is in, with or without an animation in flight,
      a new target followed by a frame one full duration later leaves it
      resting exactly on that target with no frame pending: never on a blend
      of an earlier target and the new one. */
  method LatestTargetWins(m: Marker, x: LatLng, d: real, now: real)
    requires m.Valid() && d > 0.0
    modifies m
    ensures m.Valid()
    ensures m.position == x && !m.framePending
  {
    m.Update(Some(x), d, now);
    m.Frame(now + d);
  }
}

=== FILE: geo.dfy ===
/** Values shared by the replay core: the optional value, a map coordinate and
    one recorded GPS sample of the route. */
module Geo {

  datatype Option<+T> = None | Some(value: T)

  /** A point on the map in degrees, as Leaflet's `LatLng` holds it. Coordinates
      are idealised as exact reals. */
  datatype LatLng = LatLng(lat: real, lng: real)

  /** One recorded observation of the vehicle. The ISO-8601 timestamp of the
      route file is taken here as already parsed into integer milliseconds
      since the epoch. */
  datatype Sample = Sample(latitude: real, longitude: real, timestampMs: int)

  /** The `[latitude, longitude]` pair the map draws for a sample. */
  function Coord(s: Sample): LatLng
  {
    LatLng(s.latitude, s.longitude)
  }
}

=== FILE: screen_marker.dfy ===
/** The interpolator as the replay screen mounts it: one marker per map
    container, handed the current sample's coordinates and an animation
    duration of 90% of the tick interval. */
module ScreenMarker {
  import opened Geo
  import opened AnimatedMarker
  import VehicleMap

  /** A glide handed to the marker is over by the time the next tick fires:
      one full tick interval after it starts, its progress is 1. */
  lemma GlideEndsBeforeNextTick()
    ensures Progress(VehicleMap.SimulationIntervalMs as real, VehicleMap.MarkerDurationMs) == 1.0
  {
  }

  /** As the screen is written, the map container is keyed by the current
      coordinates, so every index change to a sample at different coordinates
      mounts a fresh map and a fresh marker at the new position; the mount's
      effect then finds the marker already on its target and snaps. A change
      to a sample at the same coordinates keeps the key and the marker, which
      already rests there, so it is this same call and snaps as well. No frame
      is ever requested: the vehicle jumps. */
  method RemountedMarkerSnaps(next: LatLng, now: real) returns (resting: LatLng, pending: bool)
    ensures resting == next && !pending
  {
    var m := new Marker(Some(next), next);
    m.Update(Some(next), VehicleMap.MarkerDurationMs, now);
    resting, pending := m.position, m.framePending;
  }

  /** A marker that stays mounted across the index change, as the interpolator
      is meant to be used: moving it to a target it does not snap to, in any
      direction, starts an animation from where it stands, and a frame
      half-way through the duration shows it at the midpoint, distinct from
      both ends. */
  method KeptMarkerAnimates(prev: LatLng, next: LatLng, now: real) returns (midway: LatLng, pending: bool)
    requires !SnapsTo(prev, next)
    ensures pending
    ensures midway == LatLng((prev.lat + next.lat) / 2.0, (prev.lng + next.lng) / 2.0)
    ensures midway != prev && midway != next
  {
    var m := new Marker(Some(prev), prev);
    m.Update(Some(next), VehicleMap.MarkerDurationMs, now);
    m.Frame(now + VehicleMap.MarkerDurationMs / 2.0);
    midway, pending := m.position, m.framePending;
  }

  /** The built-in route's first tick, from sample 0 to sample 1 (south-east),
      glides when the marker is kept: half-way through it lies strictly between
      the two samples in both coordinates. */
  method MockRouteFirstTickAnimates(now: real) returns (midway: LatLng, pending: bool)
    ensures pending
    ensures 19.9578 < midway.lat < 19.958 && 73.834 < midway.lng < 73.8345
  {
    var prev := Coord(VehicleMap.MockRouteData[0]);
    var next := Coord(VehicleMap.MockRouteData[1]);
    midway, pending := KeptMarkerAnimates(prev, next, now);
  }
}

=== FILE: utils.dfy ===
/** The speed shown for the current sample: great-circle distance between the
    previous and the current sample divided by the hours between their
    timestamps, with a zero result wherever that quotient is undefined. */
module Utils {
  import opened Geo

  /** Milliseconds in one hour (1000 * 60 * 60). */
  const MsPerHour: int := 1000 * 60 * 60

  /** The result of the speed computation. The source formats it with two
      decimals; `Zero` is its literal '0.00'. */
  datatype Speed = Zero | KmH(value: real)

  /** The haversine distance in km between (lat1, lon1) and (lat2, lon2) is
      floating-point trigonometry; the model receives it as a function value
      of the four coordinates and assumes nothing about it. */
  type DistanceKm = (real, real, real, real) -> real

  /** Hours between two timestamps in milliseconds. */
  function ElapsedHours(prevMs: int, currMs: int): (h: real)
    ensures h > 0.0 <==> currMs > prevMs
    ensures h * MsPerHour as real == (currMs - prevMs) as real
  {
    (currMs - prevMs) as real / MsPerHour as real
  }

  /** The speed at `currentIndex`: zero at the first index, for a route of at
      most one sample, when either neighbour sample does not exist, or when the
      time between the two samples is not positive; otherwise distance over
      elapsed hours, the distance measured from the previous sample to the
      current one. */
  function CalculateSpeedKmH(currentIndex: int, route: seq<Sample>, distanceKm: DistanceKm): (r: Speed)
    ensures currentIndex == 0 || |route| <= 1 ==> r == Zero
    ensures r.KmH? <==>
              1 <= currentIndex < |route|
              && route[currentIndex].timestampMs > route[currentIndex - 1].timestampMs
    ensures r.KmH? ==>
              var prev, curr := route[currentIndex - 1], route[currentIndex];
              r.value * ElapsedHours(prev.timestampMs, curr.timestampMs)
                == distanceKm(prev.latitude, prev.longitude, curr.latitude, curr.longitude)
  {
    if currentIndex == 0 || |route| <= 1 then Zero
    else if !(0 <= currentIndex - 1 && currentIndex < |route|) then Zero
    else
      var curr, prev := route[currentIndex], route[currentIndex - 1];
      var d := distanceKm(prev.latitude, prev.longitude, curr.latitude, curr.longitude);
      var hours := ElapsedHours(prev.timestampMs, curr.timestampMs);
      if hours <= 0.0 then Zero
      else KmH(d / hours)
  }

  /** The speed depends on the samples at `currentIndex - 1` and `currentIndex`
      only: two routes of any lengths that hold the same two samples there give
      the same speed. */
  lemma SpeedIsLocal(i: int, r1: seq<Sample>, r2: seq<Sample>, distanceKm: DistanceKm)
    requires 1 <= i < |r1| && 1 <= i < |r2|
    requires r1[i - 1] == r2[i - 1] && r1[i] == r2[i]
    ensures CalculateSpeedKmH(i, r1, distanceKm) == CalculateSpeedKmH(i, r2, distanceKm)
  {
  }

  /** Two samples with the same timestamp never divide by zero: the speed is
      the zero result whatever the distance. */
  lemma SameTimestampIsZero(i: int, route: seq<Sample>, distanceKm: DistanceKm)
    requires 1 <= i < |route|
    requires route[i].timestampMs <= route[i - 1].timestampMs
    ensures CalculateSpeedKmH(i, route, distanceKm) == Zero
  {
  }

  /** A non-negative distance (the haversine formula never yields a negative
      one) gives a non-negative speed. */
  lemma SpeedNonNegative(i: int, route: seq<Sample>, distanceKm: DistanceKm)
    requires 1 <= i < |route|
    requires distanceKm(route[i - 1].latitude, route[i - 1].longitude,
                        route[i].latitude, route[i].longitude) >= 0.0
    ensures CalculateSpeedKmH(i, route, distanceKm).KmH? ==>
              CalculateSpeedKmH(i, route, distanceKm).value >= 0.0
  {
    var r := CalculateSpeedKmH(i, route, distanceKm);
    if r.KmH? {
      var h := ElapsedHours(route[i - 1].timestampMs, route[i].timestampMs);
      assert h > 0.0 && r.value * h >= 0.0;
    }
  }

  /** Two samples ten seconds apart are 1/360 of an hour apart, so the speed is
      the distance times 360. */
  lemma TenSecondsApart(prev: Sample, curr: Sample, distanceKm: DistanceKm)
    requires curr.timestampMs == prev.timestampMs + 10000
    ensures CalculateSpeedKmH(1, [prev, curr], distanceKm)
              == KmH(distanceKm(prev.latitude, prev.longitude, curr.latitude, curr.longitude) * 360.0)
  {
    var h := ElapsedHours(prev.timestampMs, curr.timestampMs);
    assert h == 1.0 / 360.0;
  }
}

=== FILE: vehicle_map.dfy ===
/** The playback state of the replay screen: the current sample index, the
    playing flag and the interval timer that advances the index, together with
    the values derived from them (slider percentage, traveled trace, the
    "initializing" guard). */
module VehicleMap {
  import opened Geo

  /** The interval between two ticks, in milliseconds. */
  const SimulationIntervalMs: int := 2000

  /** The marker's animation duration: 90% of the tick interval, so each glide
      ends before the next tick. */
  const MarkerDurationMs: real := SimulationIntervalMs as real * 0.9

  /** The built-in route the screen replays (timestamps 2024-07-20T10:00:00Z,
      10:00:10Z, 10:00:20Z and 10:03:10Z as epoch milliseconds). */
  const MockRouteData: seq<Sample> := [
    Sample(19.958000, 73.834000, 1721469600000),
    Sample(19.957800, 73.834500, 1721469610000),
    Sample(19.957500, 73.835000, 1721469620000),
    Sample(19.949000, 73.843500, 1721469790000)
  ]

  // ---------------------------------------------------------------------------
  // Rounding and the slider mapping
  // ---------------------------------------------------------------------------

  /** JavaScript's `Math.round(num / den)` on exact rationals: the nearest
      integer, halves rounded up. */
  function Round(num: int, den: int): (r: int)
    requires den > 0
    ensures 2 * num - den < 2 * den * r <= 2 * num + den
  {
    var q := (2 * num + den) / (2 * den);
    assert 2 * den * q <= 2 * num + den < 2 * den * q + 2 * den;
    q
  }

  /** The nearest-integer property determines `Round` uniquely. */
  lemma RoundUnique(num: int, den: int, k: int)
    requires den > 0
    requires 2 * num - den < 2 * den * k <= 2 * num + den
    ensures Round(num, den) == k
  {
    var r := Round(num, den);
    assert r - k >= 1 ==> den * (r - k) >= den;
    assert k - r >= 1 ==> den * (k - r) >= den;
  }

  /** The slider position (0 to 100) for a sample index: 0 for a route of at
      most one sample, otherwise `round(index / (n - 1) * 100)`. */
  function IndexToPercent(index: int, n: int): (p: int)
    ensures n <= 1 ==> p == 0
    ensures 0 <= index <= n - 1 ==> 0 <= p <= 100
    ensures n > 1 && index == 0 ==> p == 0
    ensures n > 1 && index == n - 1 ==> p == 100
  {
    if n > 1 then
      var p := Round(index * 100, n - 1);
      PercentFacts(index, n - 1, p);
      p
    else 0
  }

  /** What the nearest-integer property of `p` says about the percentage of
      `index` over a route whose last index is `m`. */
  lemma PercentFacts(index: int, m: int, p: int)
    requires m > 0
    requires 200 * index - m < 2 * m * p <= 200 * index + m
    ensures 0 <= index <= m ==> 0 <= p <= 100
    ensures index == 0 ==> p == 0
    ensures index == m ==> p == 100
  {
    if 0 <= index <= m {
      assert p < 0 ==> m * p <= -m;
    }
    if index == 0 {
      RoundUnique(0, m, 0);
      assert Round(0, m) == p by { RoundUnique(0, m, p); }
    }
    if index == m {
      RoundUnique(m * 100, m, 100);
      assert Round(m * 100, m) == p by { RoundUnique(m * 100, m, p); }
    }
  }

  /** The sample index a slider position selects: `round(percent / 100 * (n - 1))`.
      The source does not clamp the result; it stays in range because the
      slider only produces whole percentages from 0 to 100. */
  function PercentToIndex(percent: int, n: int): (i: int)
    ensures 0 <= percent <= 100 && n >= 1 ==> 0 <= i <= n - 1
  {
    var i := Round(percent * (n - 1), 100);
    IndexFacts(percent, n - 1, i);
    i
  }

  lemma IndexFacts(percent: int, m: int, i: int)
    requires 2 * (percent * m) - 100 < 200 * i <= 2 * (percent * m) + 100
    ensures 0 <= percent <= 100 && m >= 0 ==> 0 <= i <= m
  {
    if 0 <= percent <= 100 && m >= 0 {
      assert 0 <= percent * m <= 100 * m by {
        assert (100 - percent) * m >= 0;
      }
    }
  }

  /** For routes of at most 101 samples the slider position identifies the
      index again: percent -> index inverts index -> percent. */
  lemma {:induction false} PercentRoundTrip(index: int, n: int)
    requires 1 <= n <= 101 && 0 <= index < n
    ensures PercentToIndex(IndexToPercent(index, n), n) == index
  {
    var m := n - 1;
    var p := IndexToPercent(index, n);
    if n == 1 {
      RoundUnique(0, 100, 0);
    } else {
      assert 200 * index - m < 2 * m * p <= 200 * index + m;
      if m == 100 {
        assert p == index;
      }
      assert 2 * (p * m) - 100 < 200 * index <= 2 * (p * m) + 100;
      RoundUnique(p * m, 100, index);
    }
  }

  /** With 11 samples, index 5 maps to 50% and back to index 5. */
  lemma ElevenSampleRoundTrip()
    ensures IndexToPercent(5, 11) == 50 && PercentToIndex(50, 11) == 5
  {
    RoundUnique(500, 10, 50);
    RoundUnique(500, 100, 5);
  }

  /** The 101-sample bound of the round trip is tight: with 102 samples the
      51st sample shows as 50% and 50% selects the 52nd sample. */
  lemma RoundTripLossyAt102()
    ensures IndexToPercent(50, 102) == 50 && PercentToIndex(50, 102) == 51
  {
    RoundUnique(5000, 101, 50);
    RoundUnique(5050, 100, 51);
  }

  // ---------------------------------------------------------------------------
  // Route traces and the initializing guard
  // ---------------------------------------------------------------------------

  /** The planned-route trace: one coordinate per sample, in route order. */
  function FullRouteCoords(route: seq<Sample>): (coords: seq<LatLng>)
    ensures |coords| == |route|
    ensures forall k :: 0 <= k < |route| ==> coords[k] == LatLng(route[k].latitude, route[k].longitude)
  {
    seq(|route|, k requires 0 <= k < |route| => Coord(route[k]))
  }

  /** JavaScript's `s.slice(0, end)`: a negative end counts from the back, an
      end past the length stops at the length. */
  function SliceTo<T>(s: seq<T>, end: int): (r: seq<T>)
    ensures r <= s
    ensures 0 <= end <= |s| ==> |r| == end
    ensures end >= |s| ==> r == s
  {
    if end < 0 then (if |s| + end < 0 then [] else s[..|s| + end])
    else if end > |s| then s
    else s[..end]
  }

  /** The traveled trace: the coordinates from the start up to and including
      the current index. */
  function TraveledRouteCoords(full: seq<LatLng>, currentIndex: int): (r: seq<LatLng>)
    ensures r <= full
    ensures 0 <= currentIndex < |full| ==> |r| == currentIndex + 1 && r[currentIndex] == full[currentIndex]
    ensures currentIndex >= |full| - 1 ==> r == full
  {
    SliceTo(full, currentIndex + 1)
  }

  /** Each tick extends the traveled trace by exactly the next coordinate. */
  lemma TraveledGrowsByOne(full: seq<LatLng>, i: int)
    requires 0 <= i < |full| - 1
    ensures TraveledRouteCoords(full, i + 1) == TraveledRouteCoords(full, i) + [full[i + 1]]
  {
    assert full[..i + 2] == full[..i + 1] + [full[i + 1]];
  }

  /** The screen shows "Initializing Map..." instead of the map when the route
      is empty or has no sample at the current index. */
  predicate IsInitializing(route: seq<Sample>, currentIndex: int)
    ensures !IsInitializing(route, currentIndex) ==> 0 <= currentIndex < |route|
    ensures |route| == 0 ==> IsInitializing(route, currentIndex)
  {
    |route| == 0 || !(0 <= currentIndex < |route|)
  }

  // ---------------------------------------------------------------------------
  // The playback clock as a function of its state
  // ---------------------------------------------------------------------------

  /** The playback state: current sample index, playing flag, and whether an
      interval timer is armed. */
  datatype Clock = Clock(index: int, playing: bool, armed: bool)

  /** The index addresses a sample (it is 0 for an empty route). */
  predicate InRange(c: Clock, n: nat)
  {
    if n == 0 then c.index == 0 else 0 <= c.index < n
  }

  /** The state the simulation effect leaves: a timer is armed exactly while
      playing short of the last sample, and nothing plays at or past it. */
  predicate Settled(c: Clock, n: nat)
  {
    && c.armed == (c.playing && n > 0 && c.index < n - 1)
    && (c.index >= n - 1 ==> !c.playing)
  }

  /** One run of the simulation effect: the previous run's timer is cleared,
      then a new timer is armed while playing short of the last sample, or
      playback is forced off once the last sample is reached. */
  function Effect(c: Clock, n: nat): (r: Clock)
    ensures r.index == c.index
    ensures Settled(r, n)
    ensures c.index < n - 1 ==> r.playing == c.playing
    ensures Settled(c, n) ==> r == c
  {
    var reachedEnd := c.index >= n - 1;
    if c.playing && n > 0 && !reachedEnd then c.(armed := true)
    else if reachedEnd then c.(playing := false, armed := false)
    else c.(armed := false)
  }

  /** The interval callback adds one to the index; the index change re-runs
      the effect. A timer that is not armed never fires. */
  function TickStep(c: Clock, n: nat): (r: Clock)
    ensures !c.armed ==> r == c
    ensures c.armed ==> r.index == c.index + 1
    ensures InRange(c, n) && Settled(c, n) ==> InRange(r, n) && Settled(r, n)
  {
    if c.armed then Effect(c.(index := c.index + 1), n) else c
  }

  /** The play/pause button flips the playing flag; the effect then undoes a
      start at (or past) the last sample. */
  function ToggleStep(c: Clock, n: nat): (r: Clock)
    ensures r.index == c.index
    ensures r.playing == (!c.playing && c.index < n - 1)
    ensures Settled(r, n)
    ensures Settled(c, n) && c.index >= n - 1 ==> r == c
  {
    Effect(c.(playing := !c.playing), n)
  }

  /** The reset button stops playback and rewinds to the first sample. */
  function ResetStep(c: Clock, n: nat): (r: Clock)
    ensures r == Clock(0, false, false)
    ensures InRange(r, n) && Settled(r, n)
  {
    Effect(c.(playing := false, index := 0), n)
  }

  /** Moving the slider stops playback and jumps to the index the percentage
      selects. */
  function SliderStep(c: Clock, n: nat, percent: int): (r: Clock)
    ensures r == Clock(PercentToIndex(percent, n), false, false)
    ensures n >= 1 && 0 <= percent <= 100 ==> InRange(r, n) && Settled(r, n)
  {
    Effect(c.(playing := false, index := PercentToIndex(percent, n)), n)
  }

  /** The state after `k` timer firings. */
  function Ticks(c: Clock, n: nat, k: nat): Clock
    decreases k
  {
    if k == 0 then c else Ticks(TickStep(c, n), n, k - 1)
  }

  /** However many ticks fire, the index stays on a sample and the clock stays
      settled; in particular no tick pushes the index past the last sample. */
  lemma {:induction false} TicksPreserveInvariant(c: Clock, n: nat, k: nat)
    requires InRange(c, n) && Settled(c, n)
    ensures InRange(Ticks(c, n, k), n) && Settled(Ticks(c, n, k), n)
    decreases k
  {
    if k > 0 {
      TicksPreserveInvariant(TickStep(c, n), n, k - 1);
    }
  }

  /** A clock without an armed timer never moves again. */
  lemma {:induction false} DisarmedStaysPut(c: Clock, n: nat, k: nat)
    requires !c.armed
    ensures Ticks(c, n, k) == c
    decreases k
  {
    if k > 0 {
      DisarmedStaysPut(TickStep(c, n), n, k - 1);
    }
  }

  /** Playback started at index `i` reaches the last sample after exactly
      `n - 1 - i` ticks and stops there with no timer armed. */
  lemma {:induction false} PlayRunsToEnd(i: int, n: nat)
    requires 0 <= i < n
    ensures Ticks(Effect(Clock(i, true, false), n), n, n - 1 - i) == Clock(n - 1, false, false)
    decreases n - i
  {
    if i < n - 1 {
      assert TickStep(Effect(Clock(i, true, false), n), n) == Effect(Clock(i + 1, true, false), n);
      PlayRunsToEnd(i + 1, n);
    }
  }

  /** Before the end, each tick leaves playback running one sample further on. */
  lemma {:induction false} PlayIsRunningBeforeEnd(i: int, n: nat, k: nat)
    requires 0 <= i && i + k < n - 1
    ensures Ticks(Effect(Clock(i, true, false), n), n, k) == Clock(i + k, true, true)
    decreases k
  {
    if k > 0 {
      assert TickStep(Effect(Clock(i, true, false), n), n) == Effect(Clock(i + 1, true, false), n);
      PlayIsRunningBeforeEnd(i + 1, n, k - 1);
    }
  }

  /** A four-sample route played from index 0: after two ticks it is still
      playing, after three it rests at index 3 stopped, and no later tick
      changes anything. */
  lemma FourSampleScenario(k: nat)
    ensures Ticks(ToggleStep(Clock(0, false, false), 4), 4, 2) == Clock(2, true, true)
    ensures Ticks(ToggleStep(Clock(0, false, false), 4), 4, 3) == Clock(3, false, false)
    ensures Ticks(Clock(3, false, false), 4, k) == Clock(3, false, false)
  {
    PlayIsRunningBeforeEnd(0, 4, 2);
    PlayRunsToEnd(0, 4);
    DisarmedStaysPut(Clock(3, false, false), 4, k);
  }

  // ---------------------------------------------------------------------------
  // The component state
  // ---------------------------------------------------------------------------

  /** The replay screen's playback state. `intervalArmed` stands for a live
      interval timer held in the interval reference. Every handler writes the
      fields and then runs the simulation effect, as the framework does after
      the render the write causes. */
  class Playback {
    const route: seq<Sample>
    var currentIndex: int
    var isPlaying: bool
    var intervalArmed: bool

    function State(): Clock
      reads this
    {
      Clock(currentIndex, isPlaying, intervalArmed)
    }

    ghost predicate Valid()
      reads this
    {
      InRange(State(), |route|) && Settled(State(), |route|)
    }

    /** Mounting: index 0, paused, then the first run of the effect. */
    constructor (routeData: seq<Sample>)
      ensures route == routeData
      ensures Valid() && State() == Clock(0, false, false)
    {
      route := routeData;
      currentIndex := 0;
      isPlaying := false;
      intervalArmed := false;
      new;
      ReEvaluate();
    }

    /** The simulation effect, preceded by the previous run's cleanup. */
    method ReEvaluate()
      modifies this
      ensures State() == Effect(old(State()), |route|)
    {
      intervalArmed := false;
      var totalPoints := |route|;
      var reachedEnd := currentIndex >= totalPoints - 1;
      if isPlaying && totalPoints > 0 && !reachedEnd {
        intervalArmed := true;
      } else if reachedEnd {
        isPlaying := false;
        intervalArmed := false;
      }
    }

    /** The interval timer fires. */
    method Tick()
      requires Valid()
      modifies this
      ensures Valid()
      ensures State() == TickStep(old(State()), |route|)
    {
      if intervalArmed {
        currentIndex := currentIndex + 1;
        ReEvaluate();
      }
    }

    method TogglePlay()
      requires Valid()
      modifies this
      ensures Valid()
      ensures State() == ToggleStep(old(State()), |route|)
    {
      isPlaying := !isPlaying;
      ReEvaluate();
    }

    method ResetSimulation()
      requires Valid()
      modifies this
      ensures Valid()
      ensures State() == ResetStep(old(State()), |route|)
    {
      isPlaying := false;
      currentIndex := 0;
      ReEvaluate();
    }

    /** The slider is only shown for a loaded route, and it yields whole
        percentages from 0 to 100. */
    method OnSliderChange(percentage: int)
      requires Valid()
      requires |route| > 0 && 0 <= percentage <= 100
      modifies this
      ensures Valid()
      ensures State() == SliderStep(old(State()), |route|, percentage)
    {
      isPlaying := false;
      var newIndex := PercentToIndex(percentage, |route|);
      currentIndex := newIndex;
      ReEvaluate();
    }

    /** Unmounting runs the effect's cleanup one last time: the interval is
        cleared and nothing else changes, so no later tick moves the state. */
    method Unmount()
      modifies this`intervalArmed
      ensures !intervalArmed
      ensures currentIndex == old(currentIndex) && isPlaying == old(isPlaying)
      ensures forall k: nat :: Ticks(State(), |route|, k) == State()
    {
      intervalArmed := false;
      forall k: nat
        ensures Ticks(State(), |route|, k) == State()
      {
        DisarmedStaysPut(State(), |route|, k);
      }
    }
  }

  /** The built-in route played from the start: three ticks reach the last
      sample and stop playback. */
  method PlayMockRoute() returns (index: int, playing: bool, armed: bool)
    ensures index == 3 && !playing && !armed
  {
    var p := new Playback(MockRouteData);
    p.TogglePlay();
    p.Tick();
    p.Tick();
    p.Tick();
    index, playing, armed := p.currentIndex, p.isPlaying, p.intervalArmed;
  }
}
